=== FILE: README.md ===
# GPX serial binding: translator and session model

This project models the Python binding layer of GPX, `src/pymodule/gpxmodule.c`. GPX
converts g-code into the binary x3g protocol of MakerBot-style printers. The binding lets a
host (OctoPrint) talk g-code to such a printer over a serial port. A write hands one line
to the conversion engine. The engine sends frames to the printer and calls back
`translate_handler` after each reply. The handler appends RepRap-style text (" T:170",
" B:60", " X:20.00 Y:…") to a fixed-size buffer (`Tio`). That buffer, seeded with "ok", is
what the host gets back.

Modules, in dependency order:

- `Common`: bytes, `Option`, `Result`, and the engine's result codes (`Status`).
- `Decimal`: `%u`, `%ld` and `%0.2f` as strings, with parsers that read them back.
- `Accumulator`: the translation buffer and `tio_printf`. `Holds(t, s)` ties a buffer to the text it has accumulated.
- `Baud`: the baud-rate switch of `gpx_connect`.
- `Translator`: `translate_extruder_query_response` and `translate_handler`, plus readers that recover what each fragment reports.
- `Session`: `gpx_cleanup`, `gpx_write_string`, `gpx_connect` and `gpx_disconnect`. The global `gpx`/`tio`/`connected` state is one `State` value.

The conversion engine (`gpx_convert_line` together with `port_handler`) is a parameter,
`engine: string -> EngineRun`. It says which frames it exchanged, what each `port_handler`
call returned, and its own final result. What connect's collaborators report (log file
created or not, the machine description, the port open) comes in a `Collaborators` value.

Behaviours of the code that the model keeps:

- `tio_printf` advances the cursor by the full length vsnprintf reports, not by what it
  copied. A fragment that does not fit leaves the cursor at or past the capacity, so every
  later fragment of that write is ignored. `Accumulator.Holds` and `AppendHolds` state the
  result: the buffer shows the longest prefix of the accumulated text that fits.
- The reset before a write only sets the cursor to 0. The old characters stay, and the
  reply depends only on the capacity, never on them (`Session.WriteReply`).
- A status query (M114) that fails at the end of connect is reported as an error, but the
  session stays connected with the port open.
- A log file opened by a connect that is then refused (bad baud rate, port open failure)
  stays open until the next teardown.
- The teardown's guard is `port >= -1`, so a session with no port passes -1 to `close()`.
  `Session.Initial` records this (`closedPort == Some(-1)`); the call fails harmlessly.

## Model

| member | source | states |
|---|---|---|
| Accumulator.Append | src/pymodule/gpxmodule.c:39-53 | A full buffer ignores the fragment. Otherwise the bytes before the cursor are kept, the fragment is copied up to capacity - 1, a terminator follows, the rest of the array is untouched, and the cursor moves by the fragment's whole length. |
| Accumulator.AppendAll | src/pymodule/gpxmodule.c:39-53 | Consecutive `tio_printf` calls keep the array size; once the buffer is full they change nothing. |
| Accumulator.Reset | src/pymodule/gpxmodule.c:186 | The reset before a write only moves the cursor to the start: the array keeps its bytes, the previous reply included. |
| Accumulator.FirstAppendHolds | src/pymodule/gpxmodule.c:186-187 | After the cursor reset, the first fragment becomes the whole held text, whatever the buffer held before. |
| Accumulator.AppendHolds | src/pymodule/gpxmodule.c:44-51 | Each further fragment extends the held text by exactly that fragment, also after the buffer has overflowed. |
| Accumulator.AppendAllHolds | src/pymodule/gpxmodule.c:39-53 | A run of fragments extends the held text by their concatenation. |
| Accumulator.AppendSplit | src/pymodule/gpxmodule.c:48-51 | Printing a text in two calls leaves the same characters as printing it in one; the cursors agree, or both are at or past the capacity. |
| Accumulator.AppendAllConcat | src/pymodule/gpxmodule.c:48-51 | Any number of calls leave what one call with the concatenated text leaves. |
| Accumulator.CString | src/pymodule/gpxmodule.c:207-208 | The reply as a C string: a prefix of the array with no terminator in it, stopping at the first terminator. |
| Accumulator.HoldsText | src/pymodule/gpxmodule.c:207-208 | A buffer holding a terminator-free text reads back as that text, cut to capacity - 1 characters. |
| Baud.Resolve | src/pymodule/gpxmodule.c:255-292 | A rate is accepted iff it is 0 or a listed rate the platform defines. The speed chosen stands for the reported rate, a nonzero rate is reported unchanged, 0 selects 115200, and a refusal carries the refused rate. |
| Baud.ResolveRate | src/pymodule/gpxmodule.c:256-286 | Every speed the platform defines is selected by its own rate and by no other nonzero rate. |
| Baud.DefaultRate | src/pymodule/gpxmodule.c:282-286 | Asking for 0 is the same as asking for 115200. |
| Decimal.NatToString | src/pymodule/gpxmodule.c:88-111 | `%u` gives a non-empty numeral with no leading zero. |
| Decimal.ParseNatToString | src/pymodule/gpxmodule.c:88-111 | A `%u` numeral reads back as the number printed. |
| Decimal.IntToString | src/pymodule/gpxmodule.c:288 | `%ld` starts with a minus sign exactly for a negative value and reads back as the value. |
| Decimal.RoundHalfEven | src/pymodule/gpxmodule.c:163-168 | Rounding to an integer moves the value by at most one half, keeps a non-negative value non-negative, and rounds an exact tie to the even neighbour. |
| Decimal.Fixed2 | src/pymodule/gpxmodule.c:163-168 | `%0.2f` prints at least four characters: digits, a minus sign only in front and exactly for a negative value, and one point, third from the end. |
| Decimal.Fixed2Accuracy | src/pymodule/gpxmodule.c:163-168 | `%0.2f` output reads back as a two-decimal number within 0.005 of the value, and starts with a minus sign exactly when the value is negative. |
| Translator.Unsigned | src/pymodule/gpxmodule.c:146-156 | A frame byte under 128 is taken as it is; a byte of 128 or more becomes a 32-bit unsigned value at the top of the range, so it matches no opcode. |
| Translator.QueryFragments | src/pymodule/gpxmodule.c:77-142 | A tool query writes fragments iff its sub-opcode is 2, 30, 32 or 33: three for the extruder temperature of a multi-extruder machine (label, id, value), two on a single-extruder machine, one for the others. |
| Translator.AxisText | src/pymodule/gpxmodule.c:163-168 | An axis prints without spaces or terminators and starts with a minus sign exactly when steps / steps_per_mm is negative or a negative zero (0 steps over a negative scale), or, for a zero scale, when steps <= 0 ("-inf", "-nan"). |
| Translator.AxisTies | src/pymodule/gpxmodule.c:163-168 | Exact binary ties round to even as glibc prints them: 1 and 3 steps at 8 steps/mm print "0.12" and "0.38". |
| Translator.AxisNegativeZero | src/pymodule/gpxmodule.c:163-168 | 0 steps at -100 steps/mm print "-0.00", the sign of the IEEE negative zero. |
| Translator.PositionFragment | src/pymodule/gpxmodule.c:162-168 | The position line reads back label by label (X, Y, Z, A, B) as exactly the five axis texts. |
| Translator.HandlerFragments | src/pymodule/gpxmodule.c:154-170 | An extended-position command produces exactly the position line; a tool query produces at most three fragments; any other command produces none. |
| Translator.HandlerQueryRead | src/pymodule/gpxmodule.c:77-159 | For a tool query the handler takes the sub-opcode from byte 4 and the extruder id from byte 3: it writes nothing iff that query reports no reading, and otherwise text that reads back as that reading. |
| Translator.Handle | src/pymodule/gpxmodule.c:144-173 | A failed `port_handler` result is returned unchanged and the buffer is untouched; on success SUCCESS is returned and the array size kept. |
| Translator.HandleHolds | src/pymodule/gpxmodule.c:144-173 | One handler call extends the held text by exactly that exchange's text: empty on failure, the command's fragments on success. |
| Translator.Translate | src/pymodule/gpxmodule.c:144-173 | Running a line's exchanges through the handler keeps the array size, and a buffer already full stays exactly as it is. |
| Translator.TranslateHolds | src/pymodule/gpxmodule.c:144-173 | A line's exchanges, in order, extend the held text by the concatenation of their texts. |
| Translator.TranslatedTextPrintable | src/pymodule/gpxmodule.c:77-168 | No fragment contains a terminator, so the C-string reading of the reply is never cut short early. |
| Translator.QueryFragmentsRead | src/pymodule/gpxmodule.c:77-142 | A tool query writes text iff its sub-opcode is 2, 30, 32 or 33, and that text reads back as the reported reading: extruder temperature (with the extruder id only when there is more than one extruder), platform temperature, or target temperature. |
| Translator.ReadExtruderTemperature | src/pymodule/gpxmodule.c:88-94 | " T[id]:t" reads back as extruder temperature t, naming the extruder iff the machine has more than one. |
| Translator.ReadPlatformTemperature | src/pymodule/gpxmodule.c:102-104 | " B:t" reads back as platform temperature t. |
| Translator.ReadTargetTemperature | src/pymodule/gpxmodule.c:107-112 | Sub-opcodes 32 and 33 both write " /t", which reads back as target temperature t. |
| Translator.PositionFragmentReads | src/pymodule/gpxmodule.c:162-168 | The position line reads back label by label (X, Y, Z, A, B) into five values. Each is within 0.005 of the axis's steps divided by its steps per millimetre, when that scale is nonzero. |
| Translator.PositionExample | src/pymodule/gpxmodule.c:162-168 | 2000, 2000, 1000, 0, 0 steps at 100, 100, 400, 1, 1 steps/mm print the axis texts 20.00, 20.00, 2.50, 0.00 and 0.00 and the line " X:20.00 Y:20.00 Z:2.50 A:0.00 B:0.00". |
| Translator.SingleExtruderTemperature | src/pymodule/gpxmodule.c:88-94 | A single-extruder machine at 170 degrees prints " T:170". |
| Translator.SecondExtruderTemperature | src/pymodule/gpxmodule.c:88-94 | Extruder 1 of two at 170 degrees prints " T1:170". |
| Session.Cleanup | src/pymodule/gpxmodule.c:56-69 | Teardown clears `connected` and closes a log file, leaving stderr; a stderr log stays stderr and a NULL log stays NULL. It closes any port handle of -1 or more, leaving -1, and keeps the session invariant. |
| Session.CleanupIdempotent | src/pymodule/gpxmodule.c:56-69 | Tearing down twice leaves what tearing down once leaves. |
| Session.Disconnect | src/pymodule/gpxmodule.c:327-333 | Disconnect always reports 0 and leaves the session disconnected, its log on stderr (or still NULL), keeping the invariant. |
| Session.DisconnectIdempotent | src/pymodule/gpxmodule.c:327-333 | Disconnecting again changes nothing and reports 0 again. |
| Session.FirstCleanupClosesStdin | src/pymodule/gpxmodule.c:36-68 | The zero-initialised session has port 0 without being connected, so its first teardown passes descriptor 0 (stdin) to `close()`. |
| Session.Initial | src/pymodule/gpxmodule.c:36-68 | A session starting with port -1 satisfies the invariant and its teardown closes no real descriptor. |
| Session.CleanupClosesOnlyOpenedPort | src/pymodule/gpxmodule.c:64-68 | Under the invariant, the descriptor a teardown closes is a real one exactly when the session was connected. |
| Session.WriteMessage | src/pymodule/gpxmodule.c:179-202 | Each error gets its own text: "Not connected." exactly for a write while disconnected, "GPX error." exactly for ERROR, "Serial communication error." exactly for the serial codes. The errno IOError and an unlisted negative code get no text from this layer. |
| Session.WriteMessagesDistinct | src/pymodule/gpxmodule.c:179-202 | No two of those errors share a message. |
| Session.WriteOutcome | src/pymodule/gpxmodule.c:189-205 | A negative engine result drops the reply: EOSERROR becomes an errno IOError, ERROR "GPX error.", any serial code "Serial communication error.", and any other negative code a failure with no message. A non-negative result returns the reply. |
| Session.Write | src/pymodule/gpxmodule.c:175-209 | A write while disconnected fails with "Not connected." and changes nothing. Otherwise it succeeds iff the engine's result is non-negative. Only the buffer changes, and the invariant is kept. |
| Session.ReplyText | src/pymodule/gpxmodule.c:184-208 | After the reset, the "ok" and a line's exchanges, the buffer read as a C string is "ok" plus the exchanges' text, cut to capacity - 1. |
| Session.WriteReply | src/pymodule/gpxmodule.c:184-208 | A connected write's reply is "ok" followed by the text of every successful exchange, cut to capacity - 1, whatever the buffer held before. |
| Session.LogFailureWritesToNull | src/pymodule/gpxmodule.c:227-228 | When the log file cannot be created, the complaint is written to the NULL stream that `fopen` just returned. |
| Session.OpenLog | src/pymodule/gpxmodule.c:226-231 | The log step leaves the same log as the code, never NULL: the file if it was created, and otherwise the previous log or stderr. It complains exactly when a path was given and could not be opened, and never to NULL. |
| Session.ConnectMessage | src/pymodule/gpxmodule.c:288-290 | Only a refused rate gets a ValueError text of this layer: "Unsupported baud rate '<rate>'" and a newline, from which the refused rate reads back. |
| Session.Connect | src/pymodule/gpxmodule.c:212-313 | The session ends connected iff the rate is accepted and the port opened, holding the opened descriptor. A refused rate fails with that rate before any port is opened; a failed open fails with its errno and the port name. A successful result implies a connected session. |
| Session.ConnectReply | src/pymodule/gpxmodule.c:294-312 | Once the rate is accepted and the port opens, connect returns what the M114 write on the fresh connection returns, a failed write becoming a probe failure. |
| Session.ConnectTearsDownFirst | src/pymodule/gpxmodule.c:223 | Connecting from any state gives what connecting from that state, torn down, gives. |
| Session.ConnectForgetsPast | src/pymodule/gpxmodule.c:212-313 | From any two states with equal capacity and a port handle of -1 or more (the zero-initialised start included), connect gives the same result, connection, port, log and machine. |
| Session.RefusedConnectLeavesNoResidue | src/pymodule/gpxmodule.c:255-292 | A connect refused for its baud rate leaves the session disconnected with port -1. Writes then fail with "Not connected.", and the next connect answers as it would from a fresh session. |

## Left out

- The Python glue (argument parsing, `PyErr_*`, `Py_BuildValue`, the method table, module init) is left out. Errors are values of `WriteError`/`ConnectError`, and the exception text is kept where this layer sets it.
- `fprintf` logging (port_handler failures, connect and config diagnostics, the echo of each reply) is left out. Only where the log points is modelled, plus where the "Unable to open logfile" complaint goes.
- `ALWAYS_USE_STDERR` (lines 235-241) is left out because it is a compile-time option that is off by default.
- The `strncpy` of the input line into `gpx.buffer.in` is left out: its size lives in gpx.h, which is not part of this model. The engine receives the line as given.
- Numeric values of the result codes and `BUFFER_MAX` are left out because they live in gpx.h. Codes are symbolic (`Status`), and the buffer capacity is a parameter of every state.
- Translator.AxisText: the axis value is the exact quotient, rounded half-to-even to two decimals, not the double-precision quotient. The printed value may then differ by 0.01, and after a carry every character can change: 1999 steps at 200 steps/mm is exactly 9.995, printed "10.00" here, while the double quotient 9.99499999… prints "9.99". A quotient beyond the largest double, from a scale below about 1e-299, prints "inf" or "-inf" in the source and a long finite numeral here.
- Translator.AxisText: 0 steps over a zero scale is NaN, printed "-nan" as glibc does on x86 and x86-64; other platforms may print "nan". A scale of negative zero is not modelled; it is taken as zero.
- Translator.Unsigned: assumes `char` is signed, as on x86 and x86-64. Where `char` is unsigned, bytes of 128 or more are taken as they are.
- Accumulator.Append: vsnprintf's negative return (an encoding error) is not modelled. `%u`, `%0.2f` and literal text cannot produce it.
- Session.ConnectForgetsPast: the machine description a connect leaves (`Collaborators.machine`) is taken as independent of the session before it. The source calls `gpx_initialize(&gpx, 0)` (line 224), the non-first-time initialisation, whose body is not part of this model and may keep parts of the old `gpx`. The lemma's equal machine and equal reply (the M114 position text depends on the steps per millimetre) rest on that assumption.
- Session.Connect: where the log file cannot be created, the code passes NULL to `fprintf` (line 228), which is undefined behaviour. The model carries on as if that call returned, using `OpenLog`, whose resulting log is proved equal to the code's (`OpenLogAsWritten`).
- Session.Connect: `r.1.machine == env.machine` rests on the same assumption: the loaded description is a parameter, not a function of the previous `gpx`.
- The insides of `gpx_initialize`, `gpx_load_config`, `gpx_sio_open`, `gpx_start_convert`, `gpx_convert_line` and `port_handler` are left out; they are engine and transport code. Their observable results are parameters. In particular, whether a failed `gpx_sio_open` writes to `tio.sio.port` is not modelled: the model keeps -1.
- The framing flag, the callback registration and the `sio.in`/byte counters set at connect (lines 302-307) have no effect on the modelled behaviour and are left out.
- Translator.Handle: the `errno = rval` side effect is left out, as is the use the engine makes of the handler's return code.

## Findings

| source | as written | input that shows it | evidently intended | confidence | as-written member | corrected member |
|---|---|---|---|---|---|---|
| src/pymodule/gpxmodule.c:227-228 | When `fopen` fails, `gpx.log` is NULL and the complaint is then written with `fprintf(gpx.log, …)`, which is undefined behaviour (in practice a crash). | `connect("/dev/ttyACM0", 115200, "", "/nonexistent/dir/x.log")` | Fall back to stderr before writing the complaint. | high (not executed) | Session.LogFailureWritesToNull | Session.OpenLog |
| src/pymodule/gpxmodule.c:36-68 | The zero-initialised `static Tio tio` has port 0, and the teardown guard `port >= -1` lets 0 through. | The first `connect(...)` or `disconnect()` of a process calls `close(0)`. | Start with no port (-1) and close only descriptors this layer opened. | medium (not executed) | Session.FirstCleanupClosesStdin | Session.Initial |

=== FILE: accumulator.dfy ===
/**
 The translation buffer of the session (`Tio` in src/pymodule/gpxmodule.c): a fixed-size
 character array with a cursor, filled by `tio_printf` one formatted fragment at a time
 and read by the binding as a C string.
 */
module Accumulator {
  import opened Common

  /**
   `buf` is the whole array (its length is the capacity, BUFFER_MAX + 1 in the source)
   and `cur` the offset at which the next fragment is written.
   */
  datatype Tio = Tio(buf: seq<char>, cur: nat)

  /** What each write does before it translates anything: the cursor goes back to 0, the characters stay. */
  function Reset(t: Tio): (r: Tio)
    ensures r.buf == t.buf && r.cur == 0
  {
    t.(cur := 0)
  }

  /** The array after w characters of f and a terminator are written at offset at. */
  function Splice(buf: seq<char>, at: nat, f: string, w: nat): seq<char>
    requires w <= |f| && at + w < |buf|
  {
    buf[..at] + f[..w] + [NUL] + buf[at + w + 1..]
  }

  /** The effect of one `tio_printf` call, stated by `Append`. */
  function Print(t: Tio, f: string): Tio
  {
    if t.cur >= |t.buf| then t
    else
      var room := |t.buf| - t.cur;
      var copied := Min(|f|, room - 1);
      var cur := if |f| > 0 then t.cur + |f| else t.cur;
      Tio(Splice(t.buf, t.cur, f, copied), cur)
  }

  /**
   `tio_printf` with the fragment f already formatted. A full buffer (cursor at or past
   the capacity) ignores the call. Otherwise vsnprintf may use the `capacity - cur` bytes
   from the cursor on: it copies as much of f as leaves room for the terminator, writes the
   terminator, and the cursor moves by the length of the WHOLE fragment, so a fragment that
   did not fit leaves the cursor at or past the capacity and every later call ignored.
   */
  function Append(t: Tio, f: string): (r: Tio)
    ensures |r.buf| == |t.buf|
    ensures t.cur >= |t.buf| ==> r == t
    ensures t.cur < |t.buf| ==> r.cur == t.cur + |f|
    ensures t.cur < |t.buf| ==> r.buf[..t.cur] == t.buf[..t.cur]
    ensures t.cur < |t.buf| ==>
              var end := Min(t.cur + |f|, |t.buf| - 1);
              && (forall i :: t.cur <= i < end ==> r.buf[i] == f[i - t.cur])
              && r.buf[end] == NUL
              && r.buf[end + 1..] == t.buf[end + 1..]
  {
    Print(t, f)
  }

  /** Consecutive `tio_printf` calls, one per fragment, in order. */
  function AppendAll(t: Tio, fs: seq<string>): (r: Tio)
    ensures |r.buf| == |t.buf|
    ensures t.cur >= |t.buf| ==> r == t
    decreases |fs|
  {
    if |fs| == 0 then t else AppendAll(Append(t, fs[0]), fs[1..])
  }

  /** The reply as the binding reads it: the characters before the first terminator. */
  function CString(s: seq<char>): (r: string)
    ensures |r| <= |s| && r == s[..|r|]
    ensures NUL !in r
    ensures |r| < |s| ==> s[|r|] == NUL
  {
    if |s| == 0 || s[0] == NUL then [] else [s[0]] + CString(s[1..])
  }

  lemma {:induction false} CStringAt(s: seq<char>, k: nat)
    requires k < |s| && s[k] == NUL && NUL !in s[..k]
    ensures CString(s) == s[..k]
    decreases k
  {
    if k > 0 {
      assert s[0] == s[..k][0];
      assert s[1..][..k - 1] == s[1..k];
      assert NUL !in s[1..][..k - 1] by {
        assert s[1..k] == s[..k][1..];
      }
      CStringAt(s[1..], k - 1);
    }
  }

  /**
   t holds the text s: the characters appended since the last reset concatenate to s, the
   buffer shows as much of s as fits before a terminator, and the cursor is |s| (or, once the
   buffer has filled, somewhere at or past the capacity).
   */
  ghost predicate Holds(t: Tio, s: string)
  {
    && |t.buf| >= 1
    && (t.cur == |s| || |t.buf| <= Min(t.cur, |s|))
    && var k := Min(|s|, |t.buf| - 1);
       t.buf[..k] == s[..k] && t.buf[k] == NUL
  }

  /** The first append after a reset starts the text afresh, whatever the buffer held before. */
  lemma FirstAppendHolds(t: Tio, f: string)
    requires |t.buf| >= 1
    ensures Holds(Append(Reset(t), f), f)
  {
    var r := Append(Reset(t), f);
    var k := Min(|f|, |t.buf| - 1);
    assert forall i :: 0 <= i < k ==> r.buf[i] == f[i];
    assert r.buf[..k] == f[..k];
  }

  /** Every further append extends the held text by the fragment, even past the capacity. */
  lemma AppendHolds(t: Tio, s: string, f: string)
    requires Holds(t, s)
    ensures Holds(Append(t, f), s + f)
  {
    var r := Append(t, f);
    var k := Min(|s + f|, |t.buf| - 1);
    if t.cur >= |t.buf| {
      assert (s + f)[..k] == s[..k];
    } else {
      assert t.cur == |s|;
      assert forall i :: 0 <= i < k ==> r.buf[i] == (s + f)[i] by {
        forall i | 0 <= i < k
          ensures r.buf[i] == (s + f)[i]
        {
          if i < |s| {
            assert r.buf[i] == r.buf[..t.cur][i] == t.buf[..|s|][i];
          }
        }
      }
      assert r.buf[..k] == (s + f)[..k];
    }
  }

  lemma {:induction false} AppendAllHolds(t: Tio, s: string, fs: seq<string>)
    requires Holds(t, s)
    ensures Holds(AppendAll(t, fs), s + Concat(fs))
    decreases |fs|
  {
    if |fs| == 0 {
      assert s + Concat(fs) == s;
    } else {
      AppendHolds(t, s, fs[0]);
      AppendAllHolds(Append(t, fs[0]), s + fs[0], fs[1..]);
      assert s + fs[0] + Concat(fs[1..]) == s + Concat(fs);
    }
  }

  /** A buffer that holds a text free of terminators reads back as that text, cut to capacity - 1. */
  lemma HoldsText(t: Tio, s: string)
    requires Holds(t, s) && NUL !in s
    ensures CString(t.buf) == s[..Min(|s|, |t.buf| - 1)]
  {
    var k := Min(|s|, |t.buf| - 1);
    assert NUL !in t.buf[..k] by {
      assert t.buf[..k] == s[..k];
    }
    CStringAt(t.buf, k);
  }

  /** A fragment that does not fit writes what a longer fragment starting with it writes. */
  lemma AppendSplitOverflow(t: Tio, a: string, b: string)
    requires t.cur < |t.buf| <= t.cur + |a|
    ensures Append(t, a).buf == Append(t, a + b).buf
  {
    var room := |t.buf| - t.cur;
    assert (a + b)[..room - 1] == a[..room - 1];
  }

  /** Splicing a then b right after it is splicing a + b. */
  lemma SpliceTwice(buf: seq<char>, c: nat, a: string, b: string, w: nat)
    requires w <= |b| && c + |a| + w < |buf|
    ensures Splice(Splice(buf, c, a, |a|), c + |a|, b, w) == Splice(buf, c, a + b, |a| + w)
  {
    var mid := c + |a|;
    var once := Splice(buf, c, a, |a|);
    assert a[..|a|] == a;
    assert once[..mid] == buf[..c] + a;
    assert once[mid + w + 1..] == buf[mid + w + 1..];
    assert (a + b)[..|a| + w] == a + b[..w];
  }

  /** A fragment that fits leaves the cursor on its terminator, where the next fragment starts. */
  lemma PrintSplitFits(t: Tio, a: string, b: string)
    requires t.cur + |a| < |t.buf|
    ensures Print(Print(t, a), b).buf == Print(t, a + b).buf
  {
    SpliceTwice(t.buf, t.cur, a, b, Min(|b|, |t.buf| - t.cur - |a| - 1));
  }

  /**
   Writing a fragment in two `tio_printf` calls leaves the same characters as writing it in
   one; the cursors agree too, except that both may lie anywhere at or past the capacity.
   */
  lemma AppendSplit(t: Tio, a: string, b: string)
    ensures Append(Append(t, a), b).buf == Append(t, a + b).buf
    ensures var two := Append(Append(t, a), b).cur;
            var one := Append(t, a + b).cur;
            two == one || (two >= |t.buf| && one >= |t.buf|)
  {
    if t.cur < |t.buf| {
      if t.cur + |a| < |t.buf| {
        PrintSplitFits(t, a, b);
      } else {
        AppendSplitOverflow(t, a, b);
      }
    }
  }

  /** Appending several fragments one call at a time leaves what one call with their concatenation leaves. */
  lemma {:induction false} AppendAllConcat(t: Tio, fs: seq<string>)
    requires |fs| >= 1
    ensures AppendAll(t, fs).buf == Append(t, Concat(fs)).buf
    ensures var many := AppendAll(t, fs).cur;
            var one := Append(t, Concat(fs)).cur;
            many == one || (many >= |t.buf| && one >= |t.buf|)
    decreases |fs|
  {
    if |fs| == 1 {
      assert Concat(fs) == fs[0] + Concat(fs[1..]);
      assert Concat(fs) == fs[0];
    } else {
      var t1 := Append(t, fs[0]);
      AppendAllConcat(t1, fs[1..]);
      AppendSplit(t, fs[0], Concat(fs[1..]));
      assert Concat(fs) == fs[0] + Concat(fs[1..]);
      if t1.cur >= |t.buf| {
        assert AppendAll(t1, fs[1..]) == t1;
      }
    }
  }
}

=== FILE: baud.dfy ===
/**
 The baud-rate switch of `gpx_connect`: an exact-match lookup from the requested rate to
 the termios speed token the serial port is opened with.
 */
module Baud {
  import opened Common

  /** The termios speed constants the switch can select. */
  datatype Speed = B4800 | B9600 | B14400 | B19200 | B28800 | B38400 | B57600 | B115200

  /**
   Which of the optional speed constants the platform's termios header defines; the
   switch only has its 14400 and 28800 cases under `#ifdef B14400` and `#ifdef B28800`.
   */
  datatype Platform = Platform(has14400: bool, has28800: bool)

  /** The rate in bits per second that a speed token stands for. */
  function Rate(s: Speed): nat
  {
    match s
    case B4800 => 4800
    case B9600 => 9600
    case B14400 => 14400
    case B19200 => 19200
    case B28800 => 28800
    case B38400 => 38400
    case B57600 => 57600
    case B115200 => 115200
  }

  predicate Defined(p: Platform, s: Speed)
  {
    match s
    case B14400 => p.has14400
    case B28800 => p.has28800
    case _ => true
  }

  /** The rates the switch accepts as given. */
  function SupportedRates(p: Platform): set<int>
  {
    {4800, 9600, 19200, 38400, 57600, 115200}
    + (if p.has14400 then {14400} else {})
    + (if p.has28800 then {28800} else {})
  }

  /** The chosen speed and the rate as the connect log line then reports it. */
  datatype Resolved = Resolved(speed: Speed, baud: int)

  /**
   The switch itself. 0 falls through into the 115200 case after rewriting the reported
   rate to 115200; any other value not listed is refused with that value, before any port
   is opened.
   */
  function Resolve(p: Platform, baud: int): (r: Result<Resolved, int>)
    ensures r.Ok? <==> baud == 0 || baud in SupportedRates(p)
    ensures r.Ok? ==> Defined(p, r.value.speed) && r.value.baud == Rate(r.value.speed)
    ensures r.Ok? && baud != 0 ==> r.value.baud == baud
    ensures r.Ok? && baud == 0 ==> r.value.speed == B115200
    ensures r.Err? ==> r.error == baud
  {
    if baud == 4800 then Ok(Resolved(B4800, baud))
    else if baud == 9600 then Ok(Resolved(B9600, baud))
    else if baud == 14400 && p.has14400 then Ok(Resolved(B14400, baud))
    else if baud == 19200 then Ok(Resolved(B19200, baud))
    else if baud == 28800 && p.has28800 then Ok(Resolved(B28800, baud))
    else if baud == 38400 then Ok(Resolved(B38400, baud))
    else if baud == 57600 then Ok(Resolved(B57600, baud))
    else if baud == 0 || baud == 115200 then Ok(Resolved(B115200, 115200))
    else Err(baud)
  }

  /** Every speed the platform defines is reached from its own rate, and from no other. */
  lemma ResolveRate(p: Platform, s: Speed, baud: int)
    requires Defined(p, s)
    ensures Resolve(p, Rate(s)) == Ok(Resolved(s, Rate(s)))
    ensures baud != 0 && Resolve(p, baud).Ok? && Resolve(p, baud).value.speed == s ==> baud == Rate(s)
  {
    match s
    case B4800 =>
    case B9600 =>
    case B14400 =>
    case B19200 =>
    case B28800 =>
    case B38400 =>
    case B57600 =>
    case B115200 =>
  }

  /** Asking for 0 is asking for 115200. */
  lemma DefaultRate(p: Platform)
    ensures Resolve(p, 0) == Resolve(p, 115200) == Ok(Resolved(B115200, 115200))
  {
  }
}

=== FILE: common.dfy ===
/**
 Shared vocabulary of the GPX translation and session layer: the bytes of a framed
 command, optional values and results, and the result codes that the conversion engine
 and the serial transport hand back.
 */
module Common {

  /** One byte of a framed command buffer. */
  type byte = b: int | 0 <= b < 256

  datatype Option<+T> = None | Some(value: T)

  datatype Result<+T, +E> = Ok(value: T) | Err(error: E)

  /** The C string terminator. */
  const NUL: char := '\0'

  function Min(a: int, b: int): int
  {
    if a <= b then a else b
  }

  /** Concatenation of a list of text fragments, in order. */
  function Concat(fs: seq<string>): string
  {
    if |fs| == 0 then [] else fs[0] + Concat(fs[1..])
  }

  lemma ConcatSmall(a: string, b: string, c: string)
    ensures Concat([a]) == a
    ensures Concat([a, b]) == a + b
    ensures Concat([a, b, c]) == a + b + c
  {
    assert Concat([a]) == a by {
      assert [a][1..] == [];
    }
    assert Concat([b]) == b by {
      assert [b][1..] == [];
    }
    assert Concat([a, b]) == a + b by {
      assert [a, b][1..] == [b];
    }
    assert Concat([b, c]) == b + c by {
      assert [b, c][1..] == [c];
      assert Concat([c]) == c by {
        assert [c][1..] == [];
      }
    }
    assert [a, b, c][1..] == [b, c];
  }

  lemma ConcatAssoc(a: string, b: string, c: string)
    ensures a + b + c == a + (b + c)
  {
  }

  lemma {:induction false} ConcatAppend(fs: seq<string>, gs: seq<string>)
    ensures Concat(fs + gs) == Concat(fs) + Concat(gs)
    decreases |fs|
  {
    if |fs| == 0 {
      assert fs + gs == gs;
    } else {
      assert (fs + gs)[0] == fs[0];
      assert (fs + gs)[1..] == fs[1..] + gs;
      ConcatAppend(fs[1..], gs);
    }
  }

  /**
   Result codes of the lower layers. Their numeric values belong to gpx.h, which is not
   part of this model; what the layer depends on is the sign of a code and which named
   negative code it is.
   */
  datatype Status =
    | Done(value: nat)         // a non-negative result; Done(0) is SUCCESS
    | OsError(errno: int)      // EOSERROR, with the errno it leaves behind
    | GpxError                 // ERROR
    | SioWrite                 // ESIOWRITE
    | SioRead                  // ESIOREAD
    | SioFrame                 // ESIOFRAME
    | SioCrc                   // ESIOCRC
    | OtherFailure(code: int)  // every other negative code
  {
    predicate IsNegative()
    {
      !Done?
    }
  }

  const Success: Status := Done(0)
}

=== FILE: decimal.dfy ===
/**
 The two numeric conversions the translator's fragments use: `%u` (a decimal numeral)
 and `%0.2f` (a fixed-point numeral with two decimals), each with the parser that reads
 it back, so that a reply can be shown to carry the value it was built from.
 */
module Decimal {
  import opened Common

  predicate IsDigit(c: char)
  {
    '0' <= c <= '9'
  }

  predicate AllDigits(s: string)
  {
    forall i :: 0 <= i < |s| ==> IsDigit(s[i])
  }

  /** A non-empty run of decimal digits. */
  predicate IsNumeral(s: string)
  {
    |s| >= 1 && AllDigits(s)
  }

  function DigitValue(c: char): nat
    requires IsDigit(c)
  {
    (c as int) - ('0' as int)
  }

  function DigitChar(d: nat): (c: char)
    requires d < 10
    ensures IsDigit(c) && DigitValue(c) == d
  {
    (('0' as int) + d) as char
  }

  /** `%u`: the decimal numeral of n, without sign and without leading zeros. */
  function NatToString(n: nat): (s: string)
    ensures IsNumeral(s)
    ensures s[0] == '0' ==> n == 0 && |s| == 1
    decreases n
  {
    if n < 10 then [DigitChar(n)] else NatToString(n / 10) + [DigitChar(n % 10)]
  }

  /** The value of a run of decimal digits, most significant first. */
  function ParseNat(s: string): nat
    requires AllDigits(s)
  {
    if |s| == 0 then 0 else 10 * ParseNat(s[..|s| - 1]) + DigitValue(s[|s| - 1])
  }

  lemma {:induction false} ParseNatToString(n: nat)
    ensures ParseNat(NatToString(n)) == n
    decreases n
  {
    if n >= 10 {
      var s := NatToString(n);
      assert s[..|s| - 1] == NatToString(n / 10);
      ParseNatToString(n / 10);
    }
  }

  /** A numeral holds no character other than digits. */
  lemma NumeralAvoids(s: string, c: char)
    requires AllDigits(s) && !IsDigit(c)
    ensures c !in s
  {
  }

  /** Reads back a `%ld` numeral: an optional minus sign followed by decimal digits. */
  function ParseInt(s: string): Option<int>
  {
    if |s| >= 1 && s[0] == '-' && IsNumeral(s[1..]) then var n: int := ParseNat(s[1..]); Some(-n)
    else if IsNumeral(s) then Some(ParseNat(s))
    else None
  }

  /** `%ld`: the decimal numeral of i, with a leading minus sign when i is negative. */
  function IntToString(i: int): (s: string)
    ensures |s| >= 1
    ensures s[0] == '-' <==> i < 0
    ensures i < 0 ==> IsNumeral(s[1..]) && ParseNat(s[1..]) == -i
    ensures i >= 0 ==> IsNumeral(s) && ParseNat(s) == i
  {
    ParseNatToString(if i < 0 then -i else i);
    if i < 0 then
      var digits := NatToString(-i);
      assert ("-" + digits)[1..] == digits;
      "-" + digits
    else NatToString(i)
  }

  /** Splits s at the first occurrence of c, dropping c; None when c does not occur. */
  function SplitAt(s: string, c: char): (r: Option<(string, string)>)
    ensures r.Some? ==> c !in r.value.0 && s == r.value.0 + [c] + r.value.1
    ensures r.None? ==> c !in s
  {
    if |s| == 0 then None
    else if s[0] == c then Some(([], s[1..]))
    else match SplitAt(s[1..], c)
      case None => None
      case Some(parts) => Some(([s[0]] + parts.0, parts.1))
  }

  /** Splitting a + [c] + b at c gives back a and b when c does not occur in a. */
  lemma {:induction false} SplitAtJoin(a: string, c: char, b: string)
    requires c !in a
    ensures SplitAt(a + [c] + b, c) == Some((a, b))
    decreases |a|
  {
    if |a| > 0 {
      assert (a + [c] + b)[1..] == a[1..] + [c] + b;
      SplitAtJoin(a[1..], c, b);
      assert [a[0]] + a[1..] == a;
    }
  }

  function Abs(x: real): real
  {
    if x < 0.0 then -x else x
  }

  /**
   The integer nearest to x; an exact tie goes to the even neighbour, as printf rounds a
   value that lies exactly halfway.
   */
  function RoundHalfEven(x: real): (r: int)
    ensures -0.5 <= x - r as real <= 0.5
    ensures x >= 0.0 ==> r >= 0
    ensures x - x.Floor as real == 0.5 ==> r % 2 == 0
  {
    var f := x.Floor;
    var d := x - f as real;
    if d < 0.5 then f
    else if d > 0.5 then f + 1
    else if f % 2 == 0 then f
    else f + 1
  }

  /**
   `%0.2f` of an exact value: a minus sign for a negative value (also when it rounds to
   zero, as printf writes "-0.00"), the integer part, a point and two decimals.
   */
  function Fixed2(v: real): (s: string)
    ensures |s| >= 4
    ensures s[0] == '-' <==> v < 0.0
    ensures forall i :: 0 <= i < |s| ==> s[i] == '-' || s[i] == '.' || IsDigit(s[i])
    ensures forall i :: 0 < i < |s| ==> s[i] != '-'
    ensures s[|s| - 3] == '.' && forall i :: 0 <= i < |s| - 3 ==> s[i] != '.'
  {
    var q: nat := RoundHalfEven(Abs(v) * 100.0);
    var whole := NatToString(q / 100);
    NumeralAvoids(whole, '-');
    NumeralAvoids(whole, '.');
    (if v < 0.0 then "-" else "") + whole + "." + [DigitChar(q % 100 / 10), DigitChar(q % 10)]
  }

  /** Reads back a fixed-point numeral with exactly two decimals. */
  function DecodeFixed2(s: string): Option<real>
  {
    var negative := |s| > 0 && s[0] == '-';
    var body := if negative then s[1..] else s;
    match SplitAt(body, '.')
    case None => None
    case Some(parts) =>
      if IsNumeral(parts.0) && |parts.1| == 2 && IsNumeral(parts.1) then
        var m := ParseNat(parts.0) as real + ParseNat(parts.1) as real / 100.0;
        Some(if negative then -m else m)
      else None
  }

  /** A minus sign in front of an unsigned fixed-point numeral negates the value it reads as. */
  lemma DecodeNegated(body: string)
    requires |body| >= 1 && body[0] != '-'
    ensures DecodeFixed2("-" + body)
         == if DecodeFixed2(body).Some? then Some(-DecodeFixed2(body).value) else None
  {
    assert ("-" + body)[1..] == body;
  }

  lemma TwoDigits(q: nat)
    ensures var t := [DigitChar(q % 100 / 10), DigitChar(q % 10)];
            IsNumeral(t) && ParseNat(t) == q % 100
  {
    var t := [DigitChar(q % 100 / 10), DigitChar(q % 10)];
    assert t[..1] == [DigitChar(q % 100 / 10)];
    assert t[..1][..0] == [];
    assert ParseNat(t[..1]) == q % 100 / 10;
  }

  /** The printed value is the argument rounded to the nearest hundredth. */
  lemma Fixed2Accuracy(v: real)
    ensures DecodeFixed2(Fixed2(v)).Some?
    ensures -0.005 <= DecodeFixed2(Fixed2(v)).value - v <= 0.005
    ensures v < 0.0 <==> Fixed2(v)[0] == '-'
  {
    var q: nat := RoundHalfEven(Abs(v) * 100.0);
    var whole := NatToString(q / 100);
    var frac := [DigitChar(q % 100 / 10), DigitChar(q % 10)];
    var body := whole + "." + frac;
    var s := Fixed2(v);
    assert s == (if v < 0.0 then "-" else "") + body;
    NumeralAvoids(whole, '.');
    SplitAtJoin(whole, '.', frac);
    assert SplitAt(body, '.') == Some((whole, frac));
    ParseNatToString(q / 100);
    TwoDigits(q);
    var m := (q / 100) as real + (q % 100) as real / 100.0;
    assert q == 100 * (q / 100) + q % 100;
    assert m == q as real / 100.0;
    if v < 0.0 {
      assert s[0] == '-' && s[1..] == body;
      assert DecodeFixed2(s) == Some(-m);
    } else {
      assert s == body && s[0] == whole[0] && IsDigit(s[0]);
      assert DecodeFixed2(s) == Some(m);
    }
  }
}

=== FILE: session.dfy ===
/**
 The session layer of src/pymodule/gpxmodule.c: the `connected` flag, the serial port
 handle and the log stream, torn down by `gpx_cleanup`, set up by `gpx_connect`, used by
 `gpx_write_string` and released by `gpx_disconnect`. The global `gpx` and `tio` of the
 source become one explicit `State` value; the conversion engine, the serial port and the
 configuration loader become parameters that say what they returned.
 */
module Session {
  import opened Common
  import opened Decimal
  import opened Accumulator
  import opened Translator
  import opened Baud

  /** Where `gpx.log` points: the process's stderr, a log file the session opened, or NULL. */
  datatype LogSink = Stderr | LogFile | NoStream

  /**
   The session: the `connected` flag, the serial descriptor `tio.sio.port` (-1 for none),
   the log stream, the translation buffer and the machine description loaded at connect.
   */
  datatype State = State(connected: bool, port: int, log: LogSink, tio: Tio, machine: Machine)

  /**
   The session's invariant: the buffer has room for a terminator, and the port holds a
   descriptor exactly while the session is connected, -1 otherwise.
   */
  predicate Inv(s: State)
  {
    && |s.tio.buf| >= 1
    && (s.connected ==> s.port >= 0)
    && (!s.connected ==> s.port == -1)
  }

  /** What `gpx_cleanup` leaves and what it released: the descriptor it closed and whether it closed a log file. */
  datatype Teardown = Teardown(state: State, closedPort: Option<int>, closedLog: bool)

  /**
   `gpx_cleanup`: clears `connected`, closes a log file and points the log back at stderr
   (a NULL log stays NULL), and closes any port handle of -1 or more, leaving -1.
   */
  function Cleanup(s: State): (r: Teardown)
    ensures !r.state.connected && r.state.log != LogFile
    ensures r.state.log == if s.log == NoStream then NoStream else Stderr
    ensures r.closedLog <==> s.log == LogFile
    ensures s.port >= -1 ==> r.state.port == -1 && r.closedPort == Some(s.port)
    ensures r.state.tio == s.tio && r.state.machine == s.machine
    ensures Inv(s) ==> Inv(r.state)
  {
    var closesLog := s.log != NoStream && s.log != Stderr;
    var log := if closesLog then Stderr else s.log;
    var closesPort := s.port >= -1;
    var port := if closesPort then -1 else s.port;
    Teardown(State(false, port, log, s.tio, s.machine),
             if closesPort then Some(s.port) else None,
             closesLog)
  }

  /** Tearing down twice leaves what tearing down once leaves. */
  lemma CleanupIdempotent(s: State)
    ensures Cleanup(Cleanup(s).state).state == Cleanup(s).state
  {
  }

  /** `gpx_disconnect`: a teardown that always reports 0. */
  function Disconnect(s: State): (r: (int, State))
    ensures r.0 == 0
    ensures !r.1.connected && r.1.log != LogFile
    ensures r.1.log == if s.log == NoStream then NoStream else Stderr
    ensures s.port >= -1 ==> r.1.port == -1
    ensures Inv(s) ==> Inv(r.1)
  {
    (0, Cleanup(s).state)
  }

  /** Disconnecting again changes nothing and still reports 0. */
  lemma DisconnectIdempotent(s: State)
    ensures Disconnect(Disconnect(s).1) == Disconnect(s)
  {
    CleanupIdempotent(s);
  }

  /**
   The state before the first connect as the source declares it: `connected` is 0 and the
   zero-initialised `static Tio tio` has port 0, a descriptor this layer never opened.
   */
  function InitialAsWritten(capacity: nat, log: LogSink, machine: Machine): State
  {
    State(false, 0, log, Tio(seq(capacity, _ => NUL), 0), machine)
  }

  /**
   The first teardown of a process (from either connect or disconnect) passes descriptor 0,
   standard input, to close().
   */
  lemma FirstCleanupClosesStdin(capacity: nat, log: LogSink, machine: Machine)
    ensures !Inv(InitialAsWritten(capacity, log, machine))
    ensures Cleanup(InitialAsWritten(capacity, log, machine)).closedPort == Some(0)
  {
  }

  /** The initial state with no port handle (-1), which every operation then keeps to the invariant. */
  function Initial(capacity: nat, log: LogSink, machine: Machine): (s: State)
    requires capacity >= 1
    ensures Inv(s) && !s.connected
    ensures Cleanup(s).closedPort == Some(-1)
  {
    State(false, -1, log, Tio(seq(capacity, _ => NUL), 0), machine)
  }

  /** Under the invariant a teardown closes a real descriptor only when a connect opened it. */
  lemma CleanupClosesOnlyOpenedPort(s: State)
    requires Inv(s)
    ensures Cleanup(s).closedPort == Some(s.port)
    ensures s.port >= 0 <==> s.connected
  {
  }

  /** What the conversion engine does with one line: the exchanges it makes through the handler, and its result. */
  datatype EngineRun = EngineRun(exchanges: seq<Exchange>, result: Status)

  predicate WellFramedRun(run: EngineRun)
  {
    AllWellFramed(run.exchanges)
  }

  /** The errors a write reports to the host. */
  datatype WriteError =
    | NotConnected           // "Not connected."
    | SystemError(errno: int) // an IOError built from errno
    | GpxFailure             // "GPX error."
    | SerialError            // "Serial communication error."
    | Unreported(code: Status) // NULL returned with no exception set

  /** The exception text the binding sets, where this layer chooses one. */
  function WriteMessage(e: WriteError): (r: Option<string>)
    ensures r.None? <==> e.SystemError? || e.Unreported?
    ensures r == Some("Not connected.") <==> e.NotConnected?
    ensures r == Some("GPX error.") <==> e.GpxFailure?
    ensures r == Some("Serial communication error.") <==> e.SerialError?
    ensures r.Some? ==> |r.value| >= 1 && r.value[|r.value| - 1] == '.'
  {
    match e
    case NotConnected => Some("Not connected.")
    case GpxFailure => Some("GPX error.")
    case SerialError => Some("Serial communication error.")
    case SystemError(_) => None
    case Unreported(_) => None
  }

  /** The host can tell the three errors with a text of their own apart by that text. */
  lemma WriteMessagesDistinct(e1: WriteError, e2: WriteError)
    requires WriteMessage(e1).Some? && WriteMessage(e1) == WriteMessage(e2)
    ensures e1 == e2
  {
  }

  /**
   How `gpx_write_string` turns the engine's result into what the host sees: any negative
   code is an error and the reply is dropped; a non-negative code returns the reply.
   */
  function WriteOutcome(st: Status, reply: string): (r: Result<string, WriteError>)
    ensures r.Ok? <==> !st.IsNegative()
    ensures r.Ok? ==> r.value == reply
    ensures st.OsError? ==> r == Err(SystemError(st.errno))
    ensures st == GpxError ==> r == Err(GpxFailure)
    ensures st in {SioWrite, SioRead, SioFrame, SioCrc} ==> r == Err(SerialError)
    ensures st.OtherFailure? ==> r == Err(Unreported(st))
  {
    match st
    case Done(_) => Ok(reply)
    case OsError(errno) => Err(SystemError(errno))
    case GpxError => Err(GpxFailure)
    case SioWrite => Err(SerialError)
    case SioRead => Err(SerialError)
    case SioFrame => Err(SerialError)
    case SioCrc => Err(SerialError)
    case OtherFailure(_) => Err(Unreported(st))
  }

  /** The acknowledgement every reply starts with. */
  const Ack := "ok"

  /**
   `gpx_write_string`: refuses at once when not connected, without consulting the engine;
   otherwise resets the buffer, seeds it with "ok", lets the engine convert the line (its
   exchanges going through the translator) and maps the engine's result. The buffer keeps
   what was written; nothing else in the session changes, also when the write fails.
   */
  function Write(s: State, line: string, engine: string -> EngineRun): (r: (Result<string, WriteError>, State))
    requires s.connected ==> WellFramedRun(engine(line))
    ensures !s.connected ==> r == (Err(NotConnected), s)
    ensures r.1 == s.(tio := r.1.tio)
    ensures |r.1.tio.buf| == |s.tio.buf|
    ensures s.connected ==> (r.0.Ok? <==> !engine(line).result.IsNegative())
    ensures Inv(s) ==> Inv(r.1)
  {
    if !s.connected then (Err(NotConnected), s)
    else
      var run := engine(line);
      var seeded := Append(Reset(s.tio), Ack);
      var tio := Translate(s.machine, seeded, run.exchanges);
      (WriteOutcome(run.result, CString(tio.buf)), s.(tio := tio))
  }

  /**
   The reply a successful write returns: "ok" followed by the text of every exchange whose
   transport call succeeded, cut to capacity - 1 characters.
   */
  function ExpectedReply(capacity: nat, m: Machine, exs: seq<Exchange>): string
    requires capacity >= 1 && AllWellFramed(exs)
  {
    var text := Ack + TranslatedText(m, exs);
    text[..Min(|text|, capacity - 1)]
  }

  /** The text a write's buffer holds after the reset, the "ok" and the exchanges. */
  lemma ReplyText(t: Tio, m: Machine, exs: seq<Exchange>)
    requires |t.buf| >= 1 && AllWellFramed(exs)
    ensures CString(Translate(m, Append(Reset(t), Ack), exs).buf) == ExpectedReply(|t.buf|, m, exs)
  {
    var seeded := Append(Reset(t), Ack);
    FirstAppendHolds(t, Ack);
    TranslateHolds(m, seeded, Ack, exs);
    TranslatedTextPrintable(m, exs);
    assert NUL !in Ack;
    HoldsText(Translate(m, seeded, exs), Ack + TranslatedText(m, exs));
  }

  /** What a connected write returns depends on the buffer's capacity only, never on what it held. */
  lemma WriteReply(s: State, line: string, engine: string -> EngineRun)
    requires s.connected && |s.tio.buf| >= 1 && WellFramedRun(engine(line))
    ensures var run := engine(line);
            Write(s, line, engine).0 == WriteOutcome(run.result, ExpectedReply(|s.tio.buf|, s.machine, run.exchanges))
  {
    ReplyText(s.tio, s.machine, engine(line).exchanges);
  }

  /** Where the log points after connect's log step, and where an "Unable to open logfile" message went. */
  datatype LogStep = LogStep(sink: LogSink, diagnostic: Option<LogSink>)

  /**
   The log step of `gpx_connect` as written: a log file that cannot be created stores NULL
   in `gpx.log` and then writes the complaint to that NULL stream; only afterwards does a
   NULL log fall back to stderr.
   */
  function OpenLogAsWritten(current: LogSink, logPath: Option<string>, opens: bool): LogStep
  {
    var afterOpen := if logPath.Some? then (if opens then LogFile else NoStream) else current;
    var diagnostic := if logPath.Some? && !opens then Some(afterOpen) else None;
    LogStep(if afterOpen == NoStream then Stderr else afterOpen, diagnostic)
  }

  lemma LogFailureWritesToNull(current: LogSink, path: string)
    ensures OpenLogAsWritten(current, Some(path), false).diagnostic == Some(NoStream)
  {
  }

  /**
   The log step with the fall-back to stderr made before the complaint is written: the
   session ends up where the code as written leaves it, and no message goes to NULL.
   */
  function OpenLog(current: LogSink, logPath: Option<string>, opens: bool): (r: LogStep)
    ensures r.sink == OpenLogAsWritten(current, logPath, opens).sink
    ensures r.sink != NoStream
    ensures r.sink == LogFile <==> (logPath.Some? && opens) || (logPath.None? && current == LogFile)
    ensures r.diagnostic.Some? <==> logPath.Some? && !opens
    ensures r.diagnostic != Some(NoStream)
  {
    var afterOpen := if logPath.Some? then (if opens then LogFile else Stderr) else current;
    var sink := if afterOpen == NoStream then Stderr else afterOpen;
    LogStep(sink, if logPath.Some? && !opens then Some(sink) else None)
  }

  /** Why a connect failed. */
  datatype ConnectError =
    | UnsupportedBaud(baud: int)
    | OpenFailed(errno: int, port: string)
    | ProbeFailed(cause: WriteError)

  /** The ValueError text for a refused rate. */
  function ConnectMessage(e: ConnectError): (r: Option<string>)
    ensures r.Some? <==> e.UnsupportedBaud?
    ensures e.UnsupportedBaud? ==>
              var m := r.value;
              && |m| >= 26
              && m[..23] == "Unsupported baud rate '" && m[|m| - 2..] == "'\n"
              && ParseInt(m[23..|m| - 2]) == Some(e.baud)
  {
    match e
    case UnsupportedBaud(b) =>
      var n := IntToString(b);
      var m := "Unsupported baud rate '" + n + "'\n";
      assert m[..23] == "Unsupported baud rate '" && m[23..|m| - 2] == n && m[|m| - 2..] == "'\n";
      assert b < 0 ==> !IsNumeral(n) by { if b < 0 { assert !IsDigit(n[0]); } }
      Some(m)
    case _ => None
  }

  /** What opening the serial port gave: a descriptor, or the errno of the failure. */
  datatype OpenOutcome = Opened(fd: nat) | OpenError(errno: int)

  /**
   What connect's collaborators report: whether the log file could be created, the machine
   description `gpx_initialize` and `gpx_load_config` leave, and what opening the port gave.
   */
  datatype Collaborators = Collaborators(logOpens: bool, machine: Machine, open: OpenOutcome)

  /** The status query a successful connect sends; its reply is connect's result. */
  const StatusQuery := "M114\n"

  /**
   `gpx_connect`: always tears down first; then the log step and the machine description;
   then the baud switch, whose refusal returns before any port is opened; then the port
   open; only after that does the session count as connected, and the reply of the status
   query is returned. A failing status query is reported, but the session stays connected.
   */
  function Connect(s: State, p: Platform, port: string, baud: int, logPath: Option<string>,
                   env: Collaborators, engine: string -> EngineRun): (r: (Result<string, ConnectError>, State))
    requires WellFramedRun(engine(StatusQuery))
    ensures r.1.connected <==> Resolve(p, baud).Ok? && env.open.Opened?
    ensures r.1.connected ==> r.1.port == env.open.fd
    ensures s.port >= -1 && !r.1.connected ==> r.1.port == -1
    ensures Resolve(p, baud).Err? ==> r.0 == Err(UnsupportedBaud(baud))
    ensures Resolve(p, baud).Ok? && env.open.OpenError? ==> r.0 == Err(OpenFailed(env.open.errno, port))
    ensures r.0.Ok? ==> r.1.connected
    ensures r.1.machine == env.machine && r.1.log != NoStream
    ensures Inv(s) ==> Inv(r.1)
  {
    var clean := Cleanup(s).state;
    var log := OpenLog(clean.log, logPath, env.logOpens).sink;
    var ready := clean.(log := log, machine := env.machine);
    match Resolve(p, baud)
    case Err(b) => (Err(UnsupportedBaud(b)), ready)
    case Ok(_) =>
      match env.open
      case OpenError(errno) => (Err(OpenFailed(errno, port)), ready)
      case Opened(fd) =>
        var live := ready.(connected := true, port := fd);
        var (reply, after) := Write(live, StatusQuery, engine);
        match reply
        case Ok(text) => (Ok(text), after)
        case Err(e) => (Err(ProbeFailed(e)), after)
  }

  /** Connecting from any state is connecting from that state torn down. */
  lemma ConnectTearsDownFirst(s: State, p: Platform, port: string, baud: int, logPath: Option<string>,
                              env: Collaborators, engine: string -> EngineRun)
    requires WellFramedRun(engine(StatusQuery))
    ensures Connect(s, p, port, baud, logPath, env, engine) == Connect(Cleanup(s).state, p, port, baud, logPath, env, engine)
  {
    CleanupIdempotent(s);
  }

  /**
   Once the rate is supported and the port opens, connect returns the status query's reply
   as a write on the fresh connection returns it, and a failing query as a probe failure.
   */
  lemma ConnectReply(s: State, p: Platform, port: string, baud: int, logPath: Option<string>,
                     env: Collaborators, engine: string -> EngineRun)
    requires Resolve(p, baud).Ok? && env.open.Opened? && |s.tio.buf| >= 1
    requires WellFramedRun(engine(StatusQuery))
    ensures var run := engine(StatusQuery);
            var w := WriteOutcome(run.result, ExpectedReply(|s.tio.buf|, env.machine, run.exchanges));
            Connect(s, p, port, baud, logPath, env, engine).0 == if w.Ok? then Ok(w.value) else Err(ProbeFailed(w.error))
  {
    var live := Cleanup(s).state.(log := OpenLog(Cleanup(s).state.log, logPath, env.logOpens).sink,
                                  machine := env.machine, connected := true, port := env.open.fd);
    WriteReply(live, StatusQuery, engine);
  }

  /**
   A connect leaves no trace of what came before it: from any two states with buffers of the
   same capacity and a port handle of -1 or more (the zero-initialised start included) it reports the same result and reaches the same connection, port,
   log and machine description.
   */
  lemma ConnectForgetsPast(s1: State, s2: State, p: Platform, port: string, baud: int, logPath: Option<string>,
                           env: Collaborators, engine: string -> EngineRun)
    requires |s1.tio.buf| >= 1 && s1.port >= -1 && |s2.tio.buf| == |s1.tio.buf| && s2.port >= -1
    requires WellFramedRun(engine(StatusQuery))
    ensures var r1 := Connect(s1, p, port, baud, logPath, env, engine);
            var r2 := Connect(s2, p, port, baud, logPath, env, engine);
            && r1.0 == r2.0
            && r1.1.connected == r2.1.connected && r1.1.port == r2.1.port
            && r1.1.log == r2.1.log && r1.1.machine == r2.1.machine
  {
    if Resolve(p, baud).Ok? && env.open.Opened? {
      var l1 := Cleanup(s1).state.(log := OpenLog(Cleanup(s1).state.log, logPath, env.logOpens).sink,
                                   machine := env.machine, connected := true, port := env.open.fd);
      var l2 := Cleanup(s2).state.(log := OpenLog(Cleanup(s2).state.log, logPath, env.logOpens).sink,
                                   machine := env.machine, connected := true, port := env.open.fd);
      WriteReply(l1, StatusQuery, engine);
      WriteReply(l2, StatusQuery, engine);
    }
  }

  /**
   A connect refused for its baud rate leaves the session disconnected, and the next
   connect behaves as it would have from a fresh session.
   */
  lemma RefusedConnectLeavesNoResidue(s: State, p: Platform, port: string, badBaud: int, baud: int,
                                      logPath: Option<string>, env1: Collaborators, env2: Collaborators,
                                      engine: string -> EngineRun)
    requires Inv(s) && Resolve(p, badBaud).Err?
    requires WellFramedRun(engine(StatusQuery))
    ensures var failed := Connect(s, p, port, badBaud, logPath, env1, engine);
            var pristine := Initial(|s.tio.buf|, Stderr, env1.machine);
            && failed.0 == Err(UnsupportedBaud(badBaud))
            && !failed.1.connected && failed.1.port == -1
            && Write(failed.1, StatusQuery, engine).0 == Err(NotConnected)
            && Connect(failed.1, p, port, baud, logPath, env2, engine).0
               == Connect(pristine, p, port, baud, logPath, env2, engine).0
  {
    var failed := Connect(s, p, port, badBaud, logPath, env1, engine);
    ConnectForgetsPast(failed.1, Initial(|s.tio.buf|, Stderr, env1.machine), p, port, baud, logPath, env2, engine);
  }
}

=== FILE: translator.dfy ===
/**
 The response translator of src/pymodule/gpxmodule.c (`translate_handler` and
 `translate_extruder_query_response`): after each framed exchange with the printer it
 turns the decoded binary response into the RepRap-style text a host expects, appended to
 the reply buffer.
 */
module Translator {
  import opened Common
  import opened Decimal
  import opened Accumulator

  /** Offsets into an outgoing command frame (0xD5, payload length, payload..., CRC). */
  const CommandOffset := 2
  const ExtruderIdOffset := 3
  const QueryCommandOffset := 4

  /** The command opcodes the translator reacts to. */
  const ToolQuery: nat := 10
  const ExtendedPosition: nat := 21

  /** The tool-query sub-opcodes that produce text. */
  const QueryExtruderTemperature: nat := 2
  const QueryPlatformTemperature: nat := 30
  const QueryExtruderTarget: nat := 32
  const QueryPlatformTarget: nat := 33

  /** A position in motor steps, as the device reports it. */
  datatype Position = Position(x: int, y: int, z: int, a: int, b: int)

  /** The fields of the transport's decoded response that the translator reads. */
  datatype Response = Response(temperature: nat, position: Position)

  /** Steps per millimetre of each axis, from the machine description. */
  datatype Scale = Scale(x: real, y: real, z: real, a: real, b: real)

  /** The parts of the loaded machine description that the translator reads. */
  datatype Machine = Machine(extruderCount: nat, stepsPerMm: Scale)

  /** What `port_handler` gives back for one frame: its result code and the response it decoded. */
  datatype PortReply = PortReply(rval: Status, response: Response)

  /** One round trip the conversion engine makes through the handler. */
  datatype Exchange = Exchange(frame: seq<byte>, reply: PortReply)

  /**
   `unsigned v = buffer[i]` where buffer is a `char *`, with char signed: a byte of 128 or
   more is sign-extended before it becomes a 32-bit unsigned value.
   */
  function Unsigned(b: byte): (r: nat)
    ensures b < 128 ==> r == b
    ensures b >= 128 ==> 0x1_0000_0000 - 128 <= r < 0x1_0000_0000
  {
    if b < 128 then b else b + 0x1_0000_0000 - 256
  }

  /**
   The handler reads the command byte of every frame, and the extruder id and the query
   sub-opcode of a tool query; the engine only hands it frames that long.
   */
  predicate WellFramed(frame: seq<byte>)
  {
    && |frame| > CommandOffset
    && (Unsigned(frame[CommandOffset]) == ToolQuery ==> |frame| > QueryCommandOffset)
  }

  /**
   The `tio_printf` calls `translate_extruder_query_response` makes for one tool query, in
   order. Queries 0, 22, 35, 36 and 37 and every unlisted sub-opcode make none.
   */
  function QueryFragments(m: Machine, query: nat, extruderId: nat, temperature: nat): (r: seq<string>)
    ensures r == [] <==> query !in {QueryExtruderTemperature, QueryPlatformTemperature, QueryExtruderTarget, QueryPlatformTarget}
    ensures query == QueryExtruderTemperature ==> |r| == if m.extruderCount > 1 then 3 else 2
    ensures query != QueryExtruderTemperature ==> |r| <= 1
  {
    match query
    case 0 => []
    case 2 =>
      [" T"]
      + (if m.extruderCount > 1 then [NatToString(extruderId)] else [])
      + [":" + NatToString(temperature)]
    case 22 => []
    case 30 => [" B:" + NatToString(temperature)]
    case 32 => [" /" + NatToString(temperature)]
    case 33 => [" /" + NatToString(temperature)]
    case 35 => []
    case 36 => []
    case 37 => []
    case _ => []
  }

  /** The sign of an exact quotient. */
  lemma QuotientSign(a: real, b: real)
    requires b != 0.0
    ensures a / b < 0.0 <==> (a < 0.0 && b > 0.0) || (a > 0.0 && b < 0.0)
  {
    var q := a / b;
    assert a == q * b;
  }

  /**
   `%0.2f` of one axis, steps divided by steps per millimetre in double precision. The
   sign follows IEEE 754: 0 steps over a negative scale is a negative zero, printed
   "-0.00"; a zero scale gives an infinity, or for 0 / 0 a NaN, which x86 prints "-nan".
   */
  function AxisText(steps: int, stepsPerMm: real): (r: string)
    ensures |r| >= 1
    ensures r[0] == '-' <==> if stepsPerMm > 0.0 then steps < 0
                             else if stepsPerMm < 0.0 then steps >= 0
                             else steps <= 0
    ensures ' ' !in r && NUL !in r
  {
    if stepsPerMm != 0.0 then
      QuotientSign(steps as real, stepsPerMm);
      if steps == 0 && stepsPerMm < 0.0 then "-" + Fixed2(0.0)
      else Fixed2(steps as real / stepsPerMm)
    else if steps > 0 then "inf"
    else if steps < 0 then "-inf"
    else "-nan"
  }

  /**
   A tool query reports what the frame asks for: the sub-opcode comes from byte 4 and the
   extruder id from byte 3, and the text written is empty exactly when that sub-opcode
   reports nothing, and otherwise reads back as its report.
   */
  lemma HandlerQueryRead(m: Machine, frame: seq<byte>, response: Response)
    requires WellFramed(frame) && frame[CommandOffset] == ToolQuery
    ensures var q := Unsigned(frame[QueryCommandOffset]);
            var id := Unsigned(frame[ExtruderIdOffset]);
            var text := Concat(HandlerFragments(m, frame, response));
            var reading := QueryReading(m, q, id, response.temperature);
            && (reading.None? <==> text == [])
            && (reading.Some? ==> ParseReading(text) == reading)
  {
    QueryFragmentsRead(m, Unsigned(frame[QueryCommandOffset]), Unsigned(frame[ExtruderIdOffset]), response.temperature);
  }

  /** The labelled-value line " L1:v1 L2:v2 ..." built from values and one-letter labels. */
  function Labelled(vs: seq<string>, labels: string): string
    requires |vs| == |labels|
    decreases |labels|
  {
    if |labels| == 0 then [] else [' ', labels[0], ':'] + vs[0] + Labelled(vs[1..], labels[1..])
  }

  /** The axis texts of a position, in the order X, Y, Z, A, B. */
  function AxisTexts(m: Machine, p: Position): seq<string>
  {
    var k := m.stepsPerMm;
    [AxisText(p.x, k.x), AxisText(p.y, k.y), AxisText(p.z, k.z), AxisText(p.a, k.a), AxisText(p.b, k.b)]
  }

  /**
   The one fragment an extended-position response produces: " X:%0.2f Y:%0.2f Z:%0.2f
   A:%0.2f B:%0.2f" with each axis in millimetres.
   */
  function PositionFragment(m: Machine, p: Position): (r: string)
    ensures ReadLabelled(r, "XYZAB") == Some(AxisTexts(m, p))
  {
    AxisTextsHaveNoSpace(m, p);
    ReadLabelledJoin(AxisTexts(m, p), "XYZAB");
    Labelled(AxisTexts(m, p), "XYZAB")
  }

  /** The fragments the handler appends once `port_handler` has succeeded, by command opcode. */
  function HandlerFragments(m: Machine, frame: seq<byte>, response: Response): (r: seq<string>)
    requires WellFramed(frame)
    ensures frame[CommandOffset] == ExtendedPosition ==> r == [PositionFragment(m, response.position)]
    ensures frame[CommandOffset] != ToolQuery && frame[CommandOffset] != ExtendedPosition ==> r == []
    ensures frame[CommandOffset] == ToolQuery ==> |r| <= 3
  {
    var command := Unsigned(frame[CommandOffset]);
    if command == ToolQuery then
      var query := Unsigned(frame[QueryCommandOffset]);
      var extruderId := Unsigned(frame[ExtruderIdOffset]);
      QueryFragments(m, query, extruderId, response.temperature)
    else if command == ExtendedPosition then
      [PositionFragment(m, response.position)]
    else
      []
  }

  /**
   `translate_handler`: a failed `port_handler` result is returned as it is and nothing is
   appended; otherwise the fragments are appended and SUCCESS returned.
   */
  function Handle(m: Machine, t: Tio, e: Exchange): (r: (Status, Tio))
    requires WellFramed(e.frame)
    ensures e.reply.rval != Success ==> r == (e.reply.rval, t)
    ensures e.reply.rval == Success ==> r.0 == Success
    ensures |r.1.buf| == |t.buf|
  {
    if e.reply.rval != Success then (e.reply.rval, t)
    else (Success, AppendAll(t, HandlerFragments(m, e.frame, e.reply.response)))
  }

  predicate AllWellFramed(exs: seq<Exchange>)
  {
    forall i :: 0 <= i < |exs| ==> WellFramed(exs[i].frame)
  }

  /** The handler run over the exchanges of one line, in order; the codes go back to the engine. */
  function Translate(m: Machine, t: Tio, exs: seq<Exchange>): (r: Tio)
    requires AllWellFramed(exs)
    ensures |r.buf| == |t.buf|
    ensures t.cur >= |t.buf| ==> r == t
    decreases |exs|
  {
    if |exs| == 0 then t else Translate(m, Handle(m, t, exs[0]).1, exs[1..])
  }

  /** The text one exchange contributes to the reply. */
  function ExchangeText(m: Machine, e: Exchange): string
    requires WellFramed(e.frame)
  {
    if e.reply.rval != Success then [] else Concat(HandlerFragments(m, e.frame, e.reply.response))
  }

  /** The text a sequence of exchanges contributes to the reply. */
  function TranslatedText(m: Machine, exs: seq<Exchange>): string
    requires AllWellFramed(exs)
    decreases |exs|
  {
    if |exs| == 0 then [] else ExchangeText(m, exs[0]) + TranslatedText(m, exs[1..])
  }

  /** One exchange extends the text the buffer holds by exactly that exchange's text. */
  lemma HandleHolds(m: Machine, t: Tio, s: string, e: Exchange)
    requires WellFramed(e.frame) && Holds(t, s)
    ensures Holds(Handle(m, t, e).1, s + ExchangeText(m, e))
  {
    if e.reply.rval == Success {
      AppendAllHolds(t, s, HandlerFragments(m, e.frame, e.reply.response));
    } else {
      assert s + ExchangeText(m, e) == s;
    }
  }

  lemma TranslatedTextCons(m: Machine, exs: seq<Exchange>)
    requires AllWellFramed(exs) && |exs| > 0
    ensures TranslatedText(m, exs) == ExchangeText(m, exs[0]) + TranslatedText(m, exs[1..])
  {
  }

  /** Translating extends the text the buffer holds by exactly the exchanges' text. */
  lemma {:induction false} TranslateHolds(m: Machine, t: Tio, s: string, exs: seq<Exchange>)
    requires AllWellFramed(exs) && Holds(t, s)
    ensures Holds(Translate(m, t, exs), s + TranslatedText(m, exs))
    decreases |exs|
  {
    if |exs| == 0 {
      assert s + TranslatedText(m, exs) == s;
    } else {
      var e := exs[0];
      HandleHolds(m, t, s, e);
      TranslateHolds(m, Handle(m, t, e).1, s + ExchangeText(m, e), exs[1..]);
      TranslatedTextCons(m, exs);
      ConcatAssoc(s, ExchangeText(m, e), TranslatedText(m, exs[1..]));
    }
  }

  lemma NumeralPrintable(n: nat)
    ensures NUL !in NatToString(n)
  {
    NumeralAvoids(NatToString(n), NUL);
  }

  lemma {:induction false} LabelledPrintable(vs: seq<string>, labels: string)
    requires |vs| == |labels| && NUL !in labels
    requires forall i :: 0 <= i < |vs| ==> NUL !in vs[i]
    ensures NUL !in Labelled(vs, labels)
    decreases |labels|
  {
    if |labels| > 0 {
      assert NUL !in vs[0] && labels[0] != NUL;
      assert forall i :: 0 <= i < |vs[1..]| ==> NUL !in vs[1..][i] by {
        forall i | 0 <= i < |vs[1..]|
          ensures NUL !in vs[1..][i]
        {
          assert vs[1..][i] == vs[i + 1];
        }
      }
      assert NUL !in labels[1..] by {
        assert forall i :: 0 <= i < |labels[1..]| ==> labels[1..][i] == labels[i + 1];
      }
      LabelledPrintable(vs[1..], labels[1..]);
    }
  }

  lemma PositionPrintable(m: Machine, p: Position)
    ensures NUL !in PositionFragment(m, p)
  {
    LabelledPrintable(AxisTexts(m, p), "XYZAB");
  }

  /** The extruder-temperature text, written as one string. */
  lemma ExtruderTemperatureText(m: Machine, extruderId: nat, temperature: nat)
    ensures Concat(QueryFragments(m, QueryExtruderTemperature, extruderId, temperature))
         == " T" + (if m.extruderCount > 1 then NatToString(extruderId) else []) + ":" + NatToString(temperature)
  {
    var t := NatToString(temperature);
    var fs := QueryFragments(m, QueryExtruderTemperature, extruderId, temperature);
    if m.extruderCount > 1 {
      assert fs == [" T", NatToString(extruderId), ":" + t];
      ConcatSmall(" T", NatToString(extruderId), ":" + t);
    } else {
      assert fs == [" T", ":" + t];
      ConcatSmall(" T", ":" + t, "");
    }
  }

  /** The single-fragment queries, written as one string. */
  lemma SingleQueryText(m: Machine, query: nat, extruderId: nat, temperature: nat)
    requires query != QueryExtruderTemperature
    ensures var fs := QueryFragments(m, query, extruderId, temperature);
            |fs| <= 1 && (|fs| == 1 ==> Concat(fs) == fs[0]) && (|fs| == 0 ==> Concat(fs) == [])
  {
    var fs := QueryFragments(m, query, extruderId, temperature);
    if |fs| == 1 {
      ConcatSmall(fs[0], "", "");
    }
  }

  lemma QueryPrintable(m: Machine, query: nat, extruderId: nat, temperature: nat)
    ensures NUL !in Concat(QueryFragments(m, query, extruderId, temperature))
  {
    NumeralPrintable(temperature);
    NumeralPrintable(extruderId);
    if query == QueryExtruderTemperature {
      ExtruderTemperatureText(m, extruderId, temperature);
    } else {
      SingleQueryText(m, query, extruderId, temperature);
    }
  }

  lemma ExchangeTextPrintable(m: Machine, e: Exchange)
    requires WellFramed(e.frame)
    ensures NUL !in ExchangeText(m, e)
  {
    if e.reply.rval == Success {
      var fs := HandlerFragments(m, e.frame, e.reply.response);
      var command := Unsigned(e.frame[CommandOffset]);
      if command == ToolQuery {
        QueryPrintable(m, Unsigned(e.frame[QueryCommandOffset]), Unsigned(e.frame[ExtruderIdOffset]),
                       e.reply.response.temperature);
      } else if command == ExtendedPosition {
        PositionPrintable(m, e.reply.response.position);
        ConcatSmall(PositionFragment(m, e.reply.response.position), "", "");
      }
    }
  }

  /** No fragment holds a terminator, so the reply is never cut short inside the buffer. */
  lemma {:induction false} TranslatedTextPrintable(m: Machine, exs: seq<Exchange>)
    requires AllWellFramed(exs)
    ensures NUL !in TranslatedText(m, exs)
    decreases |exs|
  {
    if |exs| > 0 {
      ExchangeTextPrintable(m, exs[0]);
      TranslatedTextPrintable(m, exs[1..]);
      TranslatedTextCons(m, exs);
    }
  }

  /** A temperature reading as a RepRap host reads it off the reply. */
  datatype Reading =
    | ExtruderTemp(tool: Option<nat>, celsius: nat)
    | PlatformTemp(celsius: nat)
    | TargetTemp(celsius: nat)

  /** Reads one temperature fragment: " T:<t>", " T<id>:<t>", " B:<t>" or " /<t>". */
  function ParseReading(s: string): Option<Reading>
  {
    if |s| >= 3 && s[..3] == " B:" && IsNumeral(s[3..]) then Some(PlatformTemp(ParseNat(s[3..])))
    else if |s| >= 2 && s[..2] == " /" && IsNumeral(s[2..]) then Some(TargetTemp(ParseNat(s[2..])))
    else if |s| >= 2 && s[..2] == " T" then ParseExtruderReading(s[2..])
    else None
  }

  /** What follows " T": an optional extruder number, a colon and the temperature. */
  function ParseExtruderReading(s: string): Option<Reading>
  {
    match SplitAt(s, ':')
    case None => None
    case Some(parts) =>
      if IsNumeral(parts.1) && (parts.0 == [] || IsNumeral(parts.0)) then
        var tool := if parts.0 == [] then None else Some(ParseNat(parts.0));
        Some(ExtruderTemp(tool, ParseNat(parts.1)))
      else None
  }

  /**
   What a tool query reports, by sub-opcode: the extruder temperature (naming the extruder
   only on a machine with more than one), the platform temperature, or a target temperature.
   */
  function QueryReading(m: Machine, query: nat, extruderId: nat, temperature: nat): Option<Reading>
  {
    if query == QueryExtruderTemperature then
      Some(ExtruderTemp(if m.extruderCount > 1 then Some(extruderId) else None, temperature))
    else if query == QueryPlatformTemperature then Some(PlatformTemp(temperature))
    else if query == QueryExtruderTarget || query == QueryPlatformTarget then Some(TargetTemp(temperature))
    else None
  }

  /** A fragment starting with " T" is read as an extruder temperature. */
  lemma ParseReadingExtruder(rest: string)
    ensures ParseReading(" T" + rest) == ParseExtruderReading(rest)
  {
    var text := " T" + rest;
    if |text| >= 3 {
      assert text[..3][1] == 'T';
    }
    assert text[..2] == " T" && text[2..] == rest;
  }

  /** " T<id>:<t>" and " T:<t>" read back as their numbers. */
  lemma ParseExtruderText(idText: string, t: string)
    requires idText == [] || IsNumeral(idText)
    requires IsNumeral(t)
    ensures ParseReading(" T" + idText + ":" + t)
         == Some(ExtruderTemp(if idText == [] then None else Some(ParseNat(idText)), ParseNat(t)))
  {
    assert " T" + idText + ":" + t == " T" + (idText + [':'] + t);
    ParseReadingExtruder(idText + [':'] + t);
    NumeralAvoids(idText, ':');
    SplitAtJoin(idText, ':', t);
  }

  lemma ReadExtruderTemperature(m: Machine, extruderId: nat, temperature: nat)
    ensures ParseReading(Concat(QueryFragments(m, QueryExtruderTemperature, extruderId, temperature)))
         == QueryReading(m, QueryExtruderTemperature, extruderId, temperature)
  {
    var idText := if m.extruderCount > 1 then NatToString(extruderId) else [];
    ExtruderTemperatureText(m, extruderId, temperature);
    ParseNatToString(temperature);
    ParseNatToString(extruderId);
    ParseExtruderText(idText, NatToString(temperature));
  }

  lemma ReadPlatformTemperature(m: Machine, extruderId: nat, temperature: nat)
    ensures ParseReading(Concat(QueryFragments(m, QueryPlatformTemperature, extruderId, temperature)))
         == Some(PlatformTemp(temperature))
  {
    var text := " B:" + NatToString(temperature);
    SingleQueryText(m, QueryPlatformTemperature, extruderId, temperature);
    ParseNatToString(temperature);
    assert text[..3] == " B:" && text[3..] == NatToString(temperature);
  }

  lemma ReadTargetTemperature(m: Machine, query: nat, extruderId: nat, temperature: nat)
    requires query == QueryExtruderTarget || query == QueryPlatformTarget
    ensures ParseReading(Concat(QueryFragments(m, query, extruderId, temperature)))
         == Some(TargetTemp(temperature))
  {
    var text := " /" + NatToString(temperature);
    SingleQueryText(m, query, extruderId, temperature);
    ParseNatToString(temperature);
    assert text[..3][1] == '/';
    assert text[..2] == " /" && text[2..] == NatToString(temperature);
  }

  /** A tool query's text is empty exactly when it reports nothing, and otherwise reads back as its report. */
  lemma QueryFragmentsRead(m: Machine, query: nat, extruderId: nat, temperature: nat)
    ensures var text := Concat(QueryFragments(m, query, extruderId, temperature));
            && (QueryReading(m, query, extruderId, temperature).None? <==> text == [])
            && (QueryReading(m, query, extruderId, temperature).Some? ==>
                  ParseReading(text) == QueryReading(m, query, extruderId, temperature))
  {
    if query == QueryExtruderTemperature {
      ExtruderTemperatureText(m, extruderId, temperature);
      ReadExtruderTemperature(m, extruderId, temperature);
    } else {
      SingleQueryText(m, query, extruderId, temperature);
      if query == QueryPlatformTemperature {
        ReadPlatformTemperature(m, extruderId, temperature);
      } else if query == QueryExtruderTarget || query == QueryPlatformTarget {
        ReadTargetTemperature(m, query, extruderId, temperature);
      }
    }
  }

  /**
   Reads one " L:value" field off the front of a line: the value runs up to the next space,
   which starts the rest of the line, or to the end.
   */
  function ReadField(s: string, key: char): Option<(string, string)>
  {
    if |s| >= 3 && s[..3] == [' ', key, ':'] then
      match SplitAt(s[3..], ' ')
      case None => Some((s[3..], []))
      case Some(parts) => Some((parts.0, [' '] + parts.1))
    else None
  }

  /** Reads a labelled-value line back into its values, one field per label, in order. */
  function ReadLabelled(s: string, labels: string): Option<seq<string>>
    decreases |labels|
  {
    if |labels| == 0 then (if |s| == 0 then Some([]) else None)
    else
      match ReadField(s, labels[0])
      case None => None
      case Some(field) =>
        match ReadLabelled(field.1, labels[1..])
        case None => None
        case Some(rest) => Some([field.0] + rest)
  }

  lemma ReadFieldJoin(v: string, key: char, tail: string)
    requires ' ' !in v
    requires tail == [] || tail[0] == ' '
    ensures ReadField([' ', key, ':'] + v + tail, key) == Some((v, tail))
  {
    var s := [' ', key, ':'] + v + tail;
    assert s[..3] == [' ', key, ':'] && s[3..] == v + tail;
    if tail == [] {
      assert s[3..] == v;
    } else {
      assert s[3..] == v + [' '] + tail[1..];
      SplitAtJoin(v, ' ', tail[1..]);
      assert [' '] + tail[1..] == tail;
    }
  }

  lemma {:induction false} ReadLabelledJoin(vs: seq<string>, labels: string)
    requires |vs| == |labels|
    requires forall i :: 0 <= i < |vs| ==> ' ' !in vs[i]
    ensures ReadLabelled(Labelled(vs, labels), labels) == Some(vs)
    decreases |labels|
  {
    if |labels| > 0 {
      var tail := Labelled(vs[1..], labels[1..]);
      assert Labelled(vs, labels) == [' ', labels[0], ':'] + vs[0] + tail;
      assert ' ' !in vs[0];
      assert tail == [] || tail[0] == ' ';
      ReadFieldJoin(vs[0], labels[0], tail);
      assert forall i :: 0 <= i < |vs[1..]| ==> ' ' !in vs[1..][i] by {
        forall i | 0 <= i < |vs[1..]|
          ensures ' ' !in vs[1..][i]
        {
          assert vs[1..][i] == vs[i + 1];
        }
      }
      ReadLabelledJoin(vs[1..], labels[1..]);
      assert [vs[0]] + vs[1..] == vs;
    }
  }

  /** An axis text stands for steps / stepsPerMm to within half a hundredth, when the scale is not zero. */
  predicate Approximates(text: string, steps: int, stepsPerMm: real)
  {
    stepsPerMm != 0.0 ==>
      && DecodeFixed2(text).Some?
      && -0.005 <= DecodeFixed2(text).value - steps as real / stepsPerMm <= 0.005
  }

  lemma AxisTextApproximates(steps: int, stepsPerMm: real)
    ensures Approximates(AxisText(steps, stepsPerMm), steps, stepsPerMm)
  {
    if stepsPerMm != 0.0 {
      if steps == 0 && stepsPerMm < 0.0 {
        Fixed2Accuracy(0.0);
        DecodeNegated(Fixed2(0.0));
      } else {
        Fixed2Accuracy(steps as real / stepsPerMm);
      }
    }
  }

  /**
   The position line reads back, label by label, into five values, each the axis's step
   count divided by its steps per millimetre, rounded to the hundredth.
   */
  lemma PositionFragmentReads(m: Machine, p: Position)
    ensures var vs := ReadLabelled(PositionFragment(m, p), "XYZAB");
            var k := m.stepsPerMm;
            && vs == Some(AxisTexts(m, p))
            && Approximates(vs.value[0], p.x, k.x)
            && Approximates(vs.value[1], p.y, k.y)
            && Approximates(vs.value[2], p.z, k.z)
            && Approximates(vs.value[3], p.a, k.a)
            && Approximates(vs.value[4], p.b, k.b)
  {
    var k := m.stepsPerMm;
    AxisTextApproximates(p.x, k.x);
    AxisTextApproximates(p.y, k.y);
    AxisTextApproximates(p.z, k.z);
    AxisTextApproximates(p.a, k.a);
    AxisTextApproximates(p.b, k.b);
  }

  lemma AxisTextsHaveNoSpace(m: Machine, p: Position)
    ensures forall i :: 0 <= i < |AxisTexts(m, p)| ==> ' ' !in AxisTexts(m, p)[i]
  {
    var k := m.stepsPerMm;
    var ts := [AxisText(p.x, k.x), AxisText(p.y, k.y), AxisText(p.z, k.z), AxisText(p.a, k.a), AxisText(p.b, k.b)];
    assert AxisTexts(m, p) == ts;
    forall i | 0 <= i < |ts| ensures ' ' !in ts[i] {
      if i == 0 { assert ts[i] == AxisText(p.x, k.x); }
      else if i == 1 { assert ts[i] == AxisText(p.y, k.y); }
      else if i == 2 { assert ts[i] == AxisText(p.z, k.z); }
      else if i == 3 { assert ts[i] == AxisText(p.a, k.a); }
      else { assert ts[i] == AxisText(p.b, k.b); }
    }
  }

  lemma AxisTwenty()
    ensures AxisText(2000, 100.0) == "20.00"
  {
    assert RoundHalfEven(2000.0) == 2000 by { assert (2000.0).Floor == 2000; }
    assert NatToString(20) == "20" by { assert NatToString(2) == "2"; }
  }

  lemma AxisTwoAndAHalf()
    ensures AxisText(1000, 400.0) == "2.50"
  {
    assert RoundHalfEven(250.0) == 250 by { assert (250.0).Floor == 250; }
    assert NatToString(2) == "2";
  }

  lemma AxisZero()
    ensures AxisText(0, 1.0) == "0.00"
  {
    assert RoundHalfEven(0.0) == 0 by { assert (0.0).Floor == 0; }
    assert NatToString(0) == "0";
  }

  /**
   2000, 2000, 1000, 0, 0 steps at 100, 100, 400, 1, 1 steps per millimetre print the
   line " X:20.00 Y:20.00 Z:2.50 A:0.00 B:0.00".
   */
  lemma PositionExample()
    ensures AxisTexts(Machine(1, Scale(100.0, 100.0, 400.0, 1.0, 1.0)), Position(2000, 2000, 1000, 0, 0))
         == ["20.00", "20.00", "2.50", "0.00", "0.00"]
    ensures PositionFragment(Machine(1, Scale(100.0, 100.0, 400.0, 1.0, 1.0)), Position(2000, 2000, 1000, 0, 0))
         == " X:" + "20.00" + (" Y:" + "20.00" + (" Z:" + "2.50" + (" A:" + "0.00" + (" B:" + "0.00"))))
  {
    AxisTwenty();
    AxisTwoAndAHalf();
    AxisZero();
  }

  /**
   Quotients that are exact binary ties round to the even neighbour, as glibc's `%0.2f`
   does: 1 and 3 steps at 8 steps per millimetre print 0.12 and 0.38.
   */
  lemma AxisTies()
    ensures AxisText(1, 8.0) == "0.12"
    ensures AxisText(3, 8.0) == "0.38"
  {
    assert RoundHalfEven(12.5) == 12 by { assert (12.5).Floor == 12; }
    assert RoundHalfEven(37.5) == 38 by { assert (37.5).Floor == 37; }
    assert NatToString(0) == "0";
  }

  /** Zero steps over a negative scale is a negative zero, and printf shows its sign. */
  lemma AxisNegativeZero()
    ensures AxisText(0, -100.0) == "-0.00"
  {
    assert RoundHalfEven(0.0) == 0 by { assert (0.0).Floor == 0; }
    assert NatToString(0) == "0";
  }

  /** Single extruder at 170 degrees. */
  lemma SingleExtruderTemperature(m: Machine)
    requires m.extruderCount == 1
    ensures Concat(QueryFragments(m, QueryExtruderTemperature, 0, 170)) == " T:170"
  {
    assert NatToString(170) == "170" by {
      assert NatToString(17) == "17";
    }
    ExtruderTemperatureText(m, 0, 170);
  }

  /** Second extruder of two at 170 degrees. */
  lemma SecondExtruderTemperature(m: Machine)
    requires m.extruderCount == 2
    ensures Concat(QueryFragments(m, QueryExtruderTemperature, 1, 170)) == " T1:170"
  {
    assert NatToString(170) == "170" by {
      assert NatToString(17) == "17";
    }
    ExtruderTemperatureText(m, 1, 170);
  }
}
